=== FILE: README.md ===
# Metaforce metadata CRUD: request builders and the CRUD job

This project is a Dafny model of two parts of metaforce, a Ruby client for
the Salesforce Metadata API:

- The metadata client's CRUD request builders: `_create`, `_upsert`,
  `_update`, `_delete`, `_describe` and `_read`. Each turns a type symbol
  and arguments into a SOAP operation name and a message hash. The module
  also covers the verb wrappers `create` … `read` and the private
  `prepare`/`encode_content` helpers.
- `Job::CRUD`. It stores a client, a builder name and the arguments. On
  `perform` it sends that builder once and keeps either the whole reply
  (synchronous mode) or the reply's `id` (asynchronous mode). Then it hands
  control to the base `Job#perform`.

Files:

- `values.dfy`: module `Results` (`Option`, `Result`) and module `Values`.
  `Values` holds the Ruby values the path handles: nil, strings, symbols,
  arrays, hashes as insertion-ordered entry lists, and any other literal
  (integer, boolean, float) as an opaque scalar carrying its literal text. It also models
  `Hash#[]=` (`Store`), `Hash#merge` (`Merge`), `Array#compact` and
  `Array#flatten`.
- `inflector.dfy`: `to_s.camelize` on type names, with a model-only inverse,
  `Underscore`.
- `metadata_crud.dfy`: the builders; `Send`, which binds a job's stored
  arguments to a builder's parameter list; and `prepare`.
- `job_crud.dfy`: `Job::CRUD.new`, the verb wrappers and `perform`.

The transport (`client.call`), the base `Job` constructor and `perform`, a
reply's `id` accessor, and `Base64.encode64` are parameters. The model
says nothing about how they behave.

## Behaviour worth knowing

The model follows the Ruby code, including these points.

- The save builders (`_create`, `_upsert`, `_update`) never call `prepare`.
  A `:content` value therefore reaches the transport as given, not
  Base64-encoded (`MetadataCrud.SaveSendsContentAsGiven`).
- `prepare` runs `compact` before `flatten`. Only a nil passed directly is
  dropped. Nils nested in a list survive (`MetadataCrud.NestedNilSurvives`).
- `_delete` sends its names as one `full_names` list under the type tag. It
  does not build one payload per name.
- `perform` has no single-use guard. Performing a job again sends the same
  request again (`JobCrud.PerformAgainRequestsAgain`).
- There is no Failed state. In asynchronous mode, a reply without `id`
  raises `NoMethodError` out of `perform`.

## Model

| member | source | states |
|---|---|---|
| Values.Store | lib/metaforce/metadata/client/crud.rb:107 | `h[k] = v`. Afterwards `k` maps to `v` and every other key maps to what it did before. The keys gain only `k`. The length grows by one exactly when `k` is new. |
| Values.StoreKeepsOrder | lib/metaforce/metadata/client/crud.rb:107 | Existing entries keep their positions. Only entries keyed `k` change. A new key is appended last. |
| Values.StoreKeepsDistinct | lib/metaforce/metadata/client/crud.rb:107 | Storing into a hash with distinct keys keeps the keys distinct. |
| Values.Merge | lib/metaforce/metadata/client/crud.rb:14 | `h.merge(o)`. The keys are the union. Keys of `o` take `o`'s values and the others keep `h`'s values. `h`'s entries keep their positions. |
| Values.MergeKeepsDistinct | lib/metaforce/metadata/client/crud.rb:14 | Merging a hash with distinct keys into a hash with distinct keys gives a hash with distinct keys. |
| Values.MergeSingle | lib/metaforce/metadata/client/crud.rb:14 | Merging a one-entry hash stores that entry. |
| Values.Compact | lib/metaforce/metadata/client/crud.rb:100 | `compact` leaves no nil, keeps exactly the non-nil values as members, never grows the list, and leaves a nil-free list unchanged. |
| Values.CompactSingle | lib/metaforce/metadata/client/crud.rb:100 | `[x].compact` is `[]` for nil and `[x]` for anything else, `false` included. |
| Values.CompactAppend | lib/metaforce/metadata/client/crud.rb:100 | `compact` distributes over concatenation, so every non-nil element is kept in its original order. |
| Values.Flatten | lib/metaforce/metadata/client/crud.rb:100 | The flattened list holds no arrays, and every non-array element of the input appears in it. |
| Values.FlattenNested | lib/metaforce/metadata/client/crud.rb:100 | A nested array is replaced by its own flattened contents. |
| Values.FlattenAppend | lib/metaforce/metadata/client/crud.rb:100 | `flatten` distributes over concatenation, so element order is preserved. |
| Values.FlattenFlat | lib/metaforce/metadata/client/crud.rb:100 | A list with no nested arrays is its own flattening, so nothing but arrays is removed. |
| Values.FlattenIdempotent | lib/metaforce/metadata/client/crud.rb:100 | Flattening twice equals flattening once. |
| Inflector.Camelize | lib/metaforce/metadata/client/crud.rb:13 | The canonical type name contains no underscore and never starts with a lower-case letter. A snake-case name's first letter is upper-cased. |
| Inflector.CamelizeIdempotent | lib/metaforce/metadata/client/crud.rb:13 | Camelizing an already camelized name changes nothing. |
| Inflector.UnderscoreCamelize | lib/metaforce/metadata/client/crud.rb:13 | On snake-case names, `underscore` inverts `camelize`. |
| Inflector.CamelizeInjective | lib/metaforce/metadata/client/crud.rb:13 | Distinct snake-case type names give distinct type names. |
| Inflector.CamelizeTwoWords | lib/metaforce/metadata/client/crud.rb:13 | Two underscore-free words joined by `_` become the two words concatenated, each with its first letter upper-cased. |
| Inflector.ApexPage | lib/metaforce/metadata/client/crud.rb:10 | `apex_page` canonicalises to `ApexPage`. |
| MetadataCrud.TagMetadata | lib/metaforce/metadata/client/crud.rb:14 | The tagged metadata has exactly the caller's keys plus `'@xsi:type'`. The tag is `"tns:" + camelize(type)` and overrides any caller tag in place; otherwise it is the one extra entry. Every other key keeps its value and position, and no key is duplicated. |
| MetadataCrud.CreateCall | lib/metaforce/metadata/client/crud.rb:12-16 | Operation `create_metadata`. The message is a single `:metadata` entry holding the caller's metadata with the type tag merged in: one entry more than the caller's unless the caller already had a tag, and no duplicate keys. |
| MetadataCrud.UpsertCall | lib/metaforce/metadata/client/crud.rb:23-27 | Operation `upsert_metadata`, with the same message shape as create. |
| MetadataCrud.UpdateCall | lib/metaforce/metadata/client/crud.rb:45-49 | Operation `update_metadata`, with the same message shape as create. |
| MetadataCrud.SaveVerbsDifferOnlyInOperation | lib/metaforce/metadata/client/crud.rb:12-48 | Create, upsert and update build equal messages from equal inputs. Their operation names are pairwise distinct. |
| MetadataCrud.SaveSendsContentAsGiven | lib/metaforce/metadata/client/crud.rb:12-16 | The `:content` value sent by create is the caller's, unencoded. |
| MetadataCrud.CallerTagOverridden | lib/metaforce/metadata/client/crud.rb:14 | A caller-supplied `'@xsi:type'` is replaced in place. The hash does not grow and its keys stay distinct. |
| MetadataCrud.DeleteCall | lib/metaforce/metadata/client/crud.rb:34-38 | Operation `delete_metadata`. The message is a single `:metadata` entry. Its hash has exactly two distinct entries: `:full_names`, holding the names in the given order, and the type tag. |
| MetadataCrud.DeleteWithoutNames | lib/metaforce/metadata/client/crud.rb:34-37 | A delete with no names succeeds and sends an empty `full_names` list. |
| MetadataCrud.DescribeCall | lib/metaforce/metadata/client/crud.rb:56-59 | Operation `describe`. The message has exactly one entry, the type tag. |
| MetadataCrud.ReadCall | lib/metaforce/metadata/client/crud.rb:66-70 | Operation `read_metadata`. The message has exactly `:type`, the camelized name without `tns:`, and `:fullNames`, two distinct entries. It has no `'@xsi:type'`. |
| MetadataCrud.Send | lib/metaforce/metadata/client/crud.rb:12-69 | Binding stored arguments to a builder fails exactly when the count is outside the builder's arity or a save builder's metadata is not a hash. The error is `ArgumentError`, carrying the count, exactly in the arity case. Otherwise it is `NoMethodError` for `merge` on the metadata argument. Otherwise binding succeeds. |
| MetadataCrud.SendBindsSave | lib/metaforce/metadata/client/crud.rb:12-48 | For a symbol, string or nil type, `(type, hash)` reaches each save builder as `(type.to_s, hash)`. For each of the three, `metadata` defaults to `{}`. |
| MetadataCrud.SendBindsDelete | lib/metaforce/metadata/client/crud.rb:34-37 | For a symbol, string or nil type, delete takes every argument after the type as a name, in order. |
| MetadataCrud.SendBindsNames | lib/metaforce/metadata/client/crud.rb:34-69 | For a symbol, string or nil type: delete takes all remaining arguments as names, describe takes the type alone, and read's `full_names` defaults to `[]`. |
| MetadataCrud.MethodSymbolInjective | lib/metaforce/metadata/client/crud.rb:72-94 | Each verb wrapper stores its own builder symbol, no two alike, each naming an underscored builder. |
| MetadataCrud.Normalise | lib/metaforce/metadata/client/crud.rb:100 | `Array[m].compact.flatten` gives `[]` for nil, `[m]` for a hash or other scalar, and the recursive flattening for a list. The result holds no arrays. |
| MetadataCrud.NestedNilSurvives | lib/metaforce/metadata/client/crud.rb:100 | A nil inside a passed list is kept. |
| MetadataCrud.EncodeContent | lib/metaforce/metadata/client/crud.rb:106-108 | Only `:content` changes, and it becomes the encoding of its old value. Keys and positions are unchanged. A hash without `:content` is returned as is. |
| MetadataCrud.Prepare | lib/metaforce/metadata/client/crud.rb:99-103 | One hash per normalised element, in order. Each is that element with its content encoded. |
| MetadataCrud.PrepareShapes | lib/metaforce/metadata/client/crud.rb:99-102 | `prepare(nil)` is `[]`. `prepare(h)` is `[h]` with content encoded. `prepare(list)` is as long as the flattened list. |
| MetadataCrud.PreparedContentDecodes | lib/metaforce/metadata/client/crud.rb:106-108 | If the decoder inverts the encoder, decoding a prepared hash's content gives back the original content. |
| JobCrud.NewJob | lib/metaforce/job/crud.rb:4-9 | Construction stores the method and arguments exactly as given, with nothing captured yet. The base constructor runs with `@async` already `false`. |
| JobCrud.FreshJobIsSync | lib/metaforce/job/crud.rb:5-7 | A fresh job is synchronous whenever the base constructor leaves the mode it was handed. |
| JobCrud.Enqueue | lib/metaforce/metadata/client/crud.rb:72-94 | Each verb wrapper returns a fresh job built for the receiver, holding the matching underscore builder and the arguments unchanged, with no result or id captured. The wrapper has no transport parameter, so it cannot make a request. |
| JobCrud.Perform | lib/metaforce/job/crud.rb:11-18 | At most one transport request is made: exactly one, on the stored client, when the arguments bind. Sync mode stores the reply as `result` and changes nothing else. Async mode stores the reply's `id` and leaves `result` alone. Builder and transport errors escape before any capture. The base `perform` runs on the captured state. |
| JobCrud.SyncPerformKeepsReply | lib/metaforce/job/crud.rb:14-15 | Sync: `result` is exactly the reply, `id` is untouched, and the base `perform` runs next. |
| JobCrud.AsyncPerformKeepsId | lib/metaforce/job/crud.rb:12-13 | Async: `id` is the reply's `id` and `result` is untouched. A reply without `id` raises `NoMethodError`. |
| JobCrud.TransportErrorPropagates | lib/metaforce/job/crud.rb:11-16 | A transport error escapes unchanged after the single request. Nothing is captured and the base `perform` does not run. |
| JobCrud.PerformAgainRequestsAgain | lib/metaforce/job/crud.rb:11-18 | With no single-use guard, performing the resulting job again sends the same request again. |
| JobCrud.CreateThenPerform | lib/metaforce/metadata/client/crud.rb:72-74 | Assume the base constructor stores the client and leaves the mode alone. Then `create(type, md)` followed by `perform` sends exactly one `create_metadata` request, through the creating client. If that request returns, the reply becomes the job's result. |

## Left out

- The SOAP transport (`client.call`, Savon) is network I/O. It is a parameter from (client, call) to reply or raised error.
- `lib/metaforce/login.rb` is a network login call. Its only pure logic is joining the password and security token.
- The base `Job` class is not part of this model. Its constructor and `perform` are parameters. Polling, status and `done?` are not modelled. Neither is any job lifecycle (pending, tracking, completed, failed), `result()`, `poll()` or a single-use rule; none of these appear in `Job::CRUD`.
- JobCrud.NewJob: assumes the base constructor sets at most `@client` and `@async`. In particular it assumes the base constructor leaves `@result` and `@id` unassigned.
- JobCrud.Perform: the job's method is one of the six builders. `Job::CRUD.new` with any other symbol, which `send` would reject, is not modelled. The value Ruby's `perform` returns, whatever `super` returns, is not modelled either.
- `Base64.encode64` is a parameter `string -> string`. Its alphabet and Ruby's 60-character line breaking are library details.
- Inflector.Camelize: approximates ActiveSupport's `camelize` by splitting at `_`, upper-casing the first character of each segment and joining. The two agree on lower-case/underscore/digit names. On mixed-case input ActiveSupport also lower-cases the rest of each later segment. Acronym inflections and `/` to `::` are not modelled.
- MetadataCrud.Send: the type argument must be a symbol, string or nil. The `to_s` of an array or hash is its `inspect` text, which is not modelled.
- MetadataCrud.Prepare: requires every normalised element to be a hash whose `:content`, if present, is a string. Otherwise Ruby raises (`has_key?` on a non-hash, `encode64` on a non-string); those exceptions are not modelled.
- MetadataCrud.Prepare: returns encoded copies. The Ruby code mutates the caller's hashes in place. If the same hash object appears twice in the list, Ruby encodes it twice; the model encodes each element once.
- Integers, booleans and floats are one opaque `Scalar` constructor holding the literal text. The CRUD path only passes them through or compares them with nil, so no arithmetic or comparison on them is modelled.
- Ruby hashes are modelled as entry lists. Equal hashes with different insertion orders are different values here.

=== FILE: inflector.dfy ===
/**
  Type-name canonicalisation: `to_s.camelize`, as applied by every request
  builder to its type argument (`:apex_page` becomes `ApexPage`).

  The rule here splits the name at `_`, upper-cases the first character of
  every segment and joins the segments. On lower-case/underscore/digit
  identifiers this is what ActiveSupport's `camelize` does; on mixed-case
  input ActiveSupport also lower-cases the rest of each later segment, which
  this rule does not model.
 */
module Inflector {

  predicate IsLower(c: char) { 'a' <= c <= 'z' }

  predicate IsUpper(c: char) { 'A' <= c <= 'Z' }

  predicate IsDigit(c: char) { '0' <= c <= '9' }

  function Upcase(c: char): (u: char)
    ensures IsLower(c) ==> IsUpper(u)
    ensures !IsLower(c) ==> u == c
  {
    if IsLower(c) then (c as int - 'a' as int + 'A' as int) as char else c
  }

  function Downcase(c: char): (d: char)
    ensures IsUpper(c) ==> IsLower(d)
    ensures !IsUpper(c) ==> d == c
  {
    if IsUpper(c) then (c as int - 'A' as int + 'a' as int) as char else c
  }

  ghost predicate NoUnderscore(s: string) {
    forall i :: 0 <= i < |s| ==> s[i] != '_'
  }

  /** The identifiers the canonicalisation is designed for: non-empty
      segments of lower-case letters and digits, each starting with a
      letter, joined by single underscores (`apex_page`, `custom_object2`). */
  ghost predicate IsSnakeCase(s: string) {
    && |s| > 0
    && IsLower(s[0])
    && (forall i :: 0 <= i < |s| ==> IsLower(s[i]) || IsDigit(s[i]) || s[i] == '_')
    && (forall i :: 0 <= i < |s| && s[i] == '_' ==> i + 1 < |s| && IsLower(s[i + 1]))
  }

  /** Camelizes `s`; `up` says whether the next character begins a segment. */
  function CamelizeFrom(s: string, up: bool): (r: string)
    ensures NoUnderscore(r)
    ensures |r| <= |s|
  {
    if |s| == 0 then []
    else if s[0] == '_' then CamelizeFrom(s[1..], true)
    else [if up then Upcase(s[0]) else s[0]] + CamelizeFrom(s[1..], false)
  }

  /** `to_s.camelize` on the type name: upper camel case, so the name
      never starts with a lower-case letter. */
  function Camelize(s: string): (r: string)
    ensures NoUnderscore(r)
    ensures |r| > 0 ==> !IsLower(r[0])
    ensures IsSnakeCase(s) ==> |r| > 0 && r[0] == Upcase(s[0])
  {
    if |CamelizeFrom(s, true)| > 0 then
      CamelizeFirst(s, true);
      CamelizeFrom(s, true)
    else
      CamelizeFrom(s, true)
  }

  /** On a name without underscores camelizing only upper-cases the first
      character. */
  lemma {:induction false} CamelizeWithoutUnderscore(s: string, up: bool)
    requires NoUnderscore(s)
    ensures CamelizeFrom(s, up) == (if up && |s| > 0 then [Upcase(s[0])] + s[1..] else s)
  {
    if |s| > 0 {
      CamelizeWithoutUnderscore(s[1..], false);
      assert s == [s[0]] + s[1..];
    }
  }

  /** Canonicalising twice is canonicalising once: a name already in
      upper-camel form is left alone. */
  lemma CamelizeIdempotent(s: string)
    ensures Camelize(Camelize(s)) == Camelize(s)
  {
    var c := Camelize(s);
    CamelizeWithoutUnderscore(c, true);
    if |c| > 0 {
      CamelizeFirst(s, true);
    }
  }

  /** The first character of a camelized name is already upper-cased. */
  lemma {:induction false} CamelizeFirst(s: string, up: bool)
    requires up && |CamelizeFrom(s, up)| > 0
    ensures Upcase(CamelizeFrom(s, up)[0]) == CamelizeFrom(s, up)[0]
  {
    if s[0] == '_' {
      CamelizeFirst(s[1..], true);
    }
  }

  /** This model's inverse of `camelize`: every upper-case letter is
      lower-cased and, unless it is the first, preceded by `_`. It is not
      ActiveSupport's `underscore`, which keeps runs of capitals together
      (`"ABC"` gives `"abc"` there and `"a_b_c"` here). */
  function UnderscoreFrom(s: string, first: bool): (r: string)
    ensures |r| >= |s|
  {
    if |s| == 0 then []
    else if IsUpper(s[0]) then
      (if first then [] else ['_']) + [Downcase(s[0])] + UnderscoreFrom(s[1..], false)
    else [s[0]] + UnderscoreFrom(s[1..], false)
  }

  function Underscore(s: string): string {
    UnderscoreFrom(s, true)
  }

  /** The tail of a snake-case name after its first character. */
  ghost predicate SnakeTail(s: string) {
    && (forall i :: 0 <= i < |s| ==> IsLower(s[i]) || IsDigit(s[i]) || s[i] == '_')
    && (forall i :: 0 <= i < |s| && s[i] == '_' ==> i + 1 < |s| && IsLower(s[i + 1]))
  }

  /** A suffix of a snake-case tail is a snake-case tail. */
  lemma SnakeTailDrop(s: string, n: nat)
    requires SnakeTail(s) && n <= |s|
    ensures SnakeTail(s[n..])
  {
    var t := s[n..];
    forall i | 0 <= i < |t| && t[i] == '_'
      ensures i + 1 < |t| && IsLower(t[i + 1])
    {
      assert s[i + n] == '_';
    }
  }

  lemma {:induction false} UnderscoreCamelizeTail(s: string)
    requires SnakeTail(s)
    ensures UnderscoreFrom(CamelizeFrom(s, false), false) == s
    decreases |s|
  {
    if |s| > 0 {
      if s[0] == '_' {
        var t := s[2..];
        SnakeTailDrop(s, 2);
        UnderscoreCamelizeTail(t);
        assert s[1..][1..] == t;
        var c := CamelizeFrom(t, false);
        assert CamelizeFrom(s, false) == [Upcase(s[1])] + c;
        assert UnderscoreFrom([Upcase(s[1])] + c, false)
               == ['_'] + [s[1]] + UnderscoreFrom(c, false) by {
          assert ([Upcase(s[1])] + c)[1..] == c;
        }
        assert s == [s[0], s[1]] + t;
      } else {
        var t := s[1..];
        SnakeTailDrop(s, 1);
        UnderscoreCamelizeTail(t);
        var c := CamelizeFrom(t, false);
        assert CamelizeFrom(s, false) == [s[0]] + c;
        assert ([s[0]] + c)[1..] == c;
        assert s == [s[0]] + t;
      }
    }
  }

  /** Canonicalisation loses nothing on snake-case names: `underscore`
      recovers the name the caller wrote. */
  lemma UnderscoreCamelize(s: string)
    requires IsSnakeCase(s)
    ensures Underscore(Camelize(s)) == s
  {
    var t := s[1..];
    SnakeTailDrop(s, 1);
    UnderscoreCamelizeTail(t);
    assert s == [s[0]] + t;
  }

  /** Distinct snake-case names give distinct type names. */
  lemma CamelizeInjective(s: string, t: string)
    requires IsSnakeCase(s) && IsSnakeCase(t) && s != t
    ensures Camelize(s) != Camelize(t)
  {
    UnderscoreCamelize(s);
    UnderscoreCamelize(t);
  }

  /** A segment followed by the rest of a name camelizes segment by
      segment: the rest continues mid-segment. */
  lemma {:induction false} CamelizeSegment(w: string, rest: string, up: bool)
    requires |w| > 0 && NoUnderscore(w)
    ensures CamelizeFrom(w + rest, up) == CamelizeFrom(w, up) + CamelizeFrom(rest, false)
  {
    assert (w + rest)[0] == w[0] && (w + rest)[1..] == w[1..] + rest;
    if |w| == 1 {
      assert w[1..] + rest == rest;
    } else {
      CamelizeSegment(w[1..], rest, false);
    }
  }

  /** Two underscore-free words joined by `_` camelize to the two words,
      each with its first character upper-cased. */
  lemma CamelizeTwoWords(w1: string, w2: string)
    requires |w1| > 0 && |w2| > 0 && NoUnderscore(w1) && NoUnderscore(w2)
    ensures Camelize(w1 + "_" + w2) == [Upcase(w1[0])] + w1[1..] + [Upcase(w2[0])] + w2[1..]
  {
    var rest := "_" + w2;
    assert w1 + "_" + w2 == w1 + rest;
    CamelizeSegment(w1, rest, true);
    CamelizeWithoutUnderscore(w1, true);
    assert rest[0] == '_' && rest[1..] == w2;
    CamelizeWithoutUnderscore(w2, true);
  }

  /** The documented example: `:apex_page` names the type `ApexPage`. */
  lemma ApexPage()
    ensures Camelize("apex_page") == "ApexPage"
  {
    var w1, w2 := "apex", "page";
    assert NoUnderscore(w1) && NoUnderscore(w2);
    CamelizeTwoWords(w1, w2);
    assert w1 + "_" + w2 == "apex_page";
    assert Upcase('a') == 'A' && Upcase('p') == 'P';
    assert [Upcase(w1[0])] + w1[1..] + [Upcase(w2[0])] + w2[1..] == "ApexPage";
  }
}

=== FILE: job_crud.dfy ===
/**
  `Job::CRUD`: a job that stores a metadata client, one builder method name
  and its arguments, and on `perform` sends that method once, keeping the
  whole reply (synchronous mode) or the reply's `id` (asynchronous mode)
  before handing over to the base `Job#perform`.

  The verb wrappers of the metadata client (`create` ... `read`), which do
  nothing but build such a job, are here too.

  The base `Job` class is not part of this model. Its constructor, its
  `perform`, the transport behind the client and the `id` accessor of a
  reply are parameters.
 */
module JobCrud {
  import opened Results
  import opened Values
  import opened MetadataCrud

  /** The identity of a metadata client object. */
  type ClientRef = nat

  /** The instance variables the base `Job` constructor may set and this
      subclass reads: `@client` and `@async`. */
  datatype JobFields = JobFields(client: ClientRef, async: bool)

  /** A `Job::CRUD` instance. `result` and `id` are `None` while unassigned. */
  datatype Job = Job(
    base: JobFields,
    verb: Verb,
    args: seq<Value>,
    result: Option<Value>,
    id: Option<Value>)

  /** The base constructor `super(client)`: given the client and the value
      `@async` holds when it runs, the client and mode it leaves behind. */
  type BaseInit = (ClientRef, bool) -> JobFields

  /** `Job::CRUD.new(client, verb, args)`: `@async = false`, then
      `super(client)`, then the method name and arguments stored. */
  function NewJob(client: ClientRef, verb: Verb, args: seq<Value>, baseInit: BaseInit): (j: Job)
    ensures j.verb == verb && j.args == args
    ensures j.result.None? && j.id.None?
    ensures j.base == baseInit(client, false)
  {
    Job(baseInit(client, false), verb, args, None, None)
  }

  /** A fresh job is synchronous when the base constructor leaves the mode
      it is handed alone. */
  lemma FreshJobIsSync(client: ClientRef, verb: Verb, args: seq<Value>, baseInit: BaseInit)
    requires forall c, async :: baseInit(c, async).async == async
    ensures !NewJob(client, verb, args, baseInit).base.async
  {
  }

  /** The verb wrappers `create(*args)` ... `read(*args)`: a new job holding
      the receiver, the matching builder and the arguments unchanged. No
      request is made. */
  function Enqueue(v: Verb, self: ClientRef, args: seq<Value>, baseInit: BaseInit): (j: Job)
    ensures j.verb == v
    ensures j.args == args
    ensures j.result.None? && j.id.None?
    ensures j.base == baseInit(self, false)
  {
    NewJob(self, v, args, baseInit)
  }

  /** What one transport request returns, or raises. */
  datatype Reply = Returned(value: Value) | Raised(error: RubyError)

  /** One request a client sends to the transport. */
  datatype Request = Request(receiver: ClientRef, call: Call)

  /** The effect of `perform`: the requests made, the job state handed to
      the base `perform` (none when an exception escaped first), and the
      final outcome. */
  datatype Performed = Performed(
    requests: seq<Request>,
    handed: Option<Job>,
    outcome: Result<Job, RubyError>)

  /** `perform`. `transport` answers each request, `idOf` is the reply's
      `id` accessor (`None` when the reply has none, so Ruby raises), and
      `basePerform` is the base class's `perform`, run after the capture. */
  function Perform(
    job: Job,
    transport: (ClientRef, Call) -> Reply,
    idOf: Value -> Option<Value>,
    basePerform: Job -> Job): (p: Performed)
    requires |job.args| > 0 ==> HasTypeName(job.args[0])
    ensures |p.requests| <= 1
    ensures |p.requests| == 1 <==> Send(job.verb, job.args).Success?
    ensures |p.requests| == 1 ==>
              p.requests[0] == Request(job.base.client, Send(job.verb, job.args).value)
    ensures Send(job.verb, job.args).Failure? ==>
              p.handed.None? && p.outcome == Failure(Send(job.verb, job.args).error)
    ensures p.handed.Some? ==> p.outcome == Success(basePerform(p.handed.value))
    ensures p.handed.Some? ==>
              |p.requests| == 1 && transport(job.base.client, p.requests[0].call).Returned?
    ensures p.handed.Some? ==>
              && p.handed.value.base == job.base
              && p.handed.value.verb == job.verb
              && p.handed.value.args == job.args
    ensures p.handed.Some? && !job.base.async ==>
              p.handed.value == job.(result := Some(transport(job.base.client, p.requests[0].call).value))
    ensures p.handed.Some? && job.base.async ==>
              && p.handed.value.result == job.result
              && p.handed.value.id.Some?
              && Some(p.handed.value.id.value) == idOf(transport(job.base.client, p.requests[0].call).value)
    ensures p.handed.None? && Send(job.verb, job.args).Success? ==>
              var reply := transport(job.base.client, p.requests[0].call);
              || (reply.Raised? && p.outcome == Failure(reply.error))
              || (reply.Returned? && job.base.async && idOf(reply.value).None?
                  && p.outcome == Failure(NoMethodError("id", reply.value)))
  {
    match Send(job.verb, job.args)
    case Failure(e) => Performed([], None, Failure(e))
    case Success(call) =>
      var requests := [Request(job.base.client, call)];
      match transport(job.base.client, call)
      case Raised(e) => Performed(requests, None, Failure(e))
      case Returned(response) =>
        if job.base.async then
          match idOf(response)
          case None => Performed(requests, None, Failure(NoMethodError("id", response)))
          case Some(i) =>
            var captured := job.(id := Some(i));
            Performed(requests, Some(captured), Success(basePerform(captured)))
        else
          var captured := job.(result := Some(response));
          Performed(requests, Some(captured), Success(basePerform(captured)))
  }

  /** Synchronous mode: the reply is kept whole as the result, the id is
      left as it was, and the base `perform` runs on that state. */
  lemma SyncPerformKeepsReply(
    job: Job, transport: (ClientRef, Call) -> Reply, idOf: Value -> Option<Value>,
    basePerform: Job -> Job, call: Call, response: Value)
    requires |job.args| > 0 ==> HasTypeName(job.args[0])
    requires !job.base.async
    requires Send(job.verb, job.args) == Success(call)
    requires transport(job.base.client, call) == Returned(response)
    ensures var p := Perform(job, transport, idOf, basePerform);
            && p.handed.Some?
            && p.handed.value.result == Some(response)
            && p.handed.value.id == job.id
            && p.outcome == Success(basePerform(job.(result := Some(response))))
  {
  }

  /** Asynchronous mode: only the reply's id is kept; a reply without an
      `id` raises instead. */
  lemma AsyncPerformKeepsId(
    job: Job, transport: (ClientRef, Call) -> Reply, idOf: Value -> Option<Value>,
    basePerform: Job -> Job, call: Call, response: Value)
    requires |job.args| > 0 ==> HasTypeName(job.args[0])
    requires job.base.async
    requires Send(job.verb, job.args) == Success(call)
    requires transport(job.base.client, call) == Returned(response)
    ensures var p := Perform(job, transport, idOf, basePerform);
            && (idOf(response).Some? ==> p.outcome == Success(basePerform(job.(id := idOf(response)))))
            && (idOf(response).None? ==> p.outcome == Failure(NoMethodError("id", response)))
            && (p.handed.Some? ==> p.handed.value.result == job.result)
  {
  }

  /** A transport error escapes `perform` unchanged, before anything is
      captured and before the base `perform` runs. */
  lemma TransportErrorPropagates(
    job: Job, transport: (ClientRef, Call) -> Reply, idOf: Value -> Option<Value>,
    basePerform: Job -> Job, call: Call, e: RubyError)
    requires |job.args| > 0 ==> HasTypeName(job.args[0])
    requires Send(job.verb, job.args) == Success(call)
    requires transport(job.base.client, call) == Raised(e)
    ensures var p := Perform(job, transport, idOf, basePerform);
            && p.handed.None?
            && p.outcome == Failure(e)
            && p.requests == [Request(job.base.client, call)]
  {
  }

  /** `perform` has no single-use guard: if the base `perform` keeps the
      client, mode, method and arguments, performing the resulting job again
      sends the same request once more. */
  lemma PerformAgainRequestsAgain(
    job: Job, transport: (ClientRef, Call) -> Reply, idOf: Value -> Option<Value>,
    basePerform: Job -> Job)
    requires |job.args| > 0 ==> HasTypeName(job.args[0])
    requires forall j :: basePerform(j).base == j.base && basePerform(j).verb == j.verb
                         && basePerform(j).args == j.args
    requires Perform(job, transport, idOf, basePerform).outcome.Success?
    ensures var p := Perform(job, transport, idOf, basePerform);
            && Perform(p.outcome.value, transport, idOf, basePerform).requests == p.requests
            && |p.requests| == 1
  {
  }

  /** From a verb wrapper to the wire: `client.create(:apex_page, md)`
      followed by `perform` sends exactly one `create_metadata` request,
      through the client the job was built by, carrying the tagged
      metadata. */
  lemma CreateThenPerform(
    self: ClientRef, t: string, md: seq<Entry>, baseInit: BaseInit,
    transport: (ClientRef, Call) -> Reply, idOf: Value -> Option<Value>,
    basePerform: Job -> Job)
    requires baseInit(self, false) == JobFields(self, false)
    ensures var p := Perform(Enqueue(Create, self, [Sym(t), Hash(md)], baseInit), transport, idOf, basePerform);
            && p.requests == [Request(self, CreateCall(t, md))]
            && (transport(self, CreateCall(t, md)).Returned? ==>
                  p.handed == Some(Job(JobFields(self, false), Create, [Sym(t), Hash(md)],
                                       Some(transport(self, CreateCall(t, md)).value), None)))
  {
  }
}

=== FILE: metadata_crud.dfy ===
/**
  The metadata client's CRUD request builders (`_create`, `_upsert`,
  `_update`, `_delete`, `_describe`, `_read`), the way `send` binds a
  job's stored arguments to them, and the private `prepare` helper.

  Each builder turns a type name and its arguments into a `Call`: the
  operation name handed to the SOAP transport (`client.call(op, message: m)`)
  and the message hash. The transport itself is not part of this module.
 */
module MetadataCrud {
  import opened Results
  import opened Values
  import opened Inflector

  /** The six builder methods; a job stores one of them as its method name. */
  datatype Verb = Create | Upsert | Update | Delete | Describe | Read

  /** The symbol a job stores for each verb (`:_create`, ...). */
  function MethodSymbol(v: Verb): string {
    match v
    case Create => "_create"
    case Upsert => "_upsert"
    case Update => "_update"
    case Delete => "_delete"
    case Describe => "_describe"
    case Read => "_read"
  }

  /** Each verb wrapper stores its own builder: no two verbs share a
      method symbol, and each symbol names an underscored builder. */
  lemma MethodSymbolInjective(a: Verb, b: Verb)
    ensures MethodSymbol(a) == MethodSymbol(b) ==> a == b
    ensures |MethodSymbol(a)| > 1 && MethodSymbol(a)[0] == '_'
  {
  }

  /** One SOAP request: the operation symbol and the `message:` hash. */
  datatype Call = Call(operation: string, message: Value)

  /** What Ruby raises on the CRUD path. `Fault` stands for whatever the
      transport raises (SOAP faults, HTTP errors); the builders raise the
      other two. */
  datatype RubyError =
    | ArgumentError(given: nat)
    | NoMethodError(name: string, receiver: Value)
    | Fault(message: string)

  const MetadataKey: Key := SymKey("metadata")
  const XsiType: Key := StrKey("@xsi:type")
  const FullNamesKey: Key := SymKey("full_names")
  const TypeKey: Key := SymKey("type")
  const ReadNamesKey: Key := SymKey("fullNames")
  const ContentKey: Key := SymKey("content")

  /** The schema-type attribute every tagged builder attaches. */
  function TypeTag(typeName: string): string {
    "tns:" + Camelize(typeName)
  }

  /** `h` is the caller's metadata `md` with the type tag `tag` merged in:
      the same keys plus the tag key, the tag overriding any caller-supplied
      `'@xsi:type'` in place or else appended as the one extra entry, every
      other key keeping its value and position, and no key duplicated. */
  ghost predicate IsTaggedCopy(h: seq<Entry>, md: seq<Entry>, tag: string) {
    && KeysOf(h) == KeysOf(md) + {XsiType}
    && Lookup(h, XsiType) == Some(Str(tag))
    && (forall k :: k != XsiType ==> Lookup(h, k) == Lookup(md, k))
    && |h| == (if XsiType in KeysOf(md) then |md| else |md| + 1)
    && (forall i :: 0 <= i < |md| ==> h[i].key == md[i].key)
    && (DistinctKeys(md) ==> DistinctKeys(h))
  }

  /** The message hash `{ metadata: h }`: a single entry. */
  ghost predicate WrapsMetadata(message: Value, h: seq<Entry>) {
    && message.Hash?
    && |message.entries| == 1
    && KeysOf(message.entries) == {MetadataKey}
    && Lookup(message.entries, MetadataKey) == Some(Hash(h))
  }

  /** `metadata.merge({'@xsi:type' => "tns:#{type}"})`. */
  function TagMetadata(typeName: string, md: seq<Entry>): (h: seq<Entry>)
    ensures IsTaggedCopy(h, md, TypeTag(typeName))
  {
    var tag := [Entry(XsiType, Str(TypeTag(typeName)))];
    MergeKeepsDistinct(md, tag);
    MergeSingle(md, XsiType, Str(TypeTag(typeName)));
    Merge(md, tag)
  }

  function MetadataMessage(typeName: string, md: seq<Entry>): (m: Value)
    ensures WrapsMetadata(m, TagMetadata(typeName, md))
  {
    SingleEntry(MetadataKey, Hash(TagMetadata(typeName, md)));
    Hash([Entry(MetadataKey, Hash(TagMetadata(typeName, md)))])
  }

  /** `_create(type, metadata)`. */
  function CreateCall(typeName: string, md: seq<Entry>): (c: Call)
    ensures c.operation == "create_metadata"
    ensures exists h :: WrapsMetadata(c.message, h) && IsTaggedCopy(h, md, TypeTag(typeName))
  {
    Call("create_metadata", MetadataMessage(typeName, md))
  }

  /** `_upsert(type, metadata)`. */
  function UpsertCall(typeName: string, md: seq<Entry>): (c: Call)
    ensures c.operation == "upsert_metadata"
    ensures exists h :: WrapsMetadata(c.message, h) && IsTaggedCopy(h, md, TypeTag(typeName))
  {
    Call("upsert_metadata", MetadataMessage(typeName, md))
  }

  /** `_update(type, metadata)`. */
  function UpdateCall(typeName: string, md: seq<Entry>): (c: Call)
    ensures c.operation == "update_metadata"
    ensures exists h :: WrapsMetadata(c.message, h) && IsTaggedCopy(h, md, TypeTag(typeName))
  {
    Call("update_metadata", MetadataMessage(typeName, md))
  }

  /** `_delete(type, *args)`: the metadata holds exactly the full names, in
      the order given (possibly none), and the type tag. */
  function DeleteCall(typeName: string, names: seq<Value>): (c: Call)
    ensures c.operation == "delete_metadata"
    ensures exists h ::
              && WrapsMetadata(c.message, h)
              && |h| == 2 && DistinctKeys(h)
              && KeysOf(h) == {FullNamesKey, XsiType}
              && Lookup(h, FullNamesKey) == Some(Arr(names))
              && Lookup(h, XsiType) == Some(Str(TypeTag(typeName)))
  {
    var h := TagMetadata(typeName, [Entry(FullNamesKey, Arr(names))]);
    SingleEntry(FullNamesKey, Arr(names));
    SingleEntry(MetadataKey, Hash(h));
    Call("delete_metadata", Hash([Entry(MetadataKey, Hash(h))]))
  }

  /** `_describe(type)`: the message is nothing but the type tag. */
  function DescribeCall(typeName: string): (c: Call)
    ensures c.operation == "describe"
    ensures c.message.Hash? && KeysOf(c.message.entries) == {XsiType}
    ensures |c.message.entries| == 1
    ensures Lookup(c.message.entries, XsiType) == Some(Str(TypeTag(typeName)))
  {
    Call("describe", Hash([Entry(XsiType, Str(TypeTag(typeName)))]))
  }

  /** `_read(type, full_names)`: explicit `type` and `fullNames` fields and
      no type tag. */
  function ReadCall(typeName: string, fullNames: Value): (c: Call)
    ensures c.operation == "read_metadata"
    ensures c.message.Hash? && KeysOf(c.message.entries) == {TypeKey, ReadNamesKey}
    ensures |c.message.entries| == 2 && DistinctKeys(c.message.entries)
    ensures XsiType !in KeysOf(c.message.entries)
    ensures Lookup(c.message.entries, TypeKey) == Some(Str(Camelize(typeName)))
    ensures Lookup(c.message.entries, ReadNamesKey) == Some(fullNames)
  {
    var es := [Entry(TypeKey, Str(Camelize(typeName))), Entry(ReadNamesKey, fullNames)];
    assert es[1..] == [es[1]];
    SingleEntry(ReadNamesKey, fullNames);
    assert KeysOf(es) == {TypeKey} + KeysOf(es[1..]);
    Call("read_metadata", Hash(es))
  }

  /** `type.to_s` for the receivers the model covers: symbols, strings and
      nil (whose `to_s` is empty). */
  predicate HasTypeName(v: Value) {
    v.Sym? || v.Str? || v.Nil?
  }

  function TypeName(v: Value): string
    requires HasTypeName(v)
  {
    match v
    case Sym(name) => name
    case Str(s) => s
    case Nil => ""
  }

  /** The `metadata` parameter of `_create`/`_upsert`/`_update` and the
      `full_names` parameter of `_read`: the second argument, or the default. */
  function SecondOr(args: seq<Value>, default: Value): Value {
    if |args| >= 2 then args[1] else default
  }

  /** `client.send(method, *args)` up to the transport call: Ruby's arity
      check against the builder's parameter list, the parameter defaults
      (`metadata={}`, `full_names=[]`), and `merge` sent to a metadata
      argument that is not a hash. */
  function Send(v: Verb, args: seq<Value>): (r: Result<Call, RubyError>)
    requires |args| > 0 ==> HasTypeName(args[0])
    ensures r.Failure? <==>
              || |args| == 0
              || (!v.Delete? && |args| > ArityMax(v))
              || (v in {Create, Upsert, Update} && |args| == 2 && !args[1].Hash?)
    ensures r.Failure? && r.error.ArgumentError? ==> r.error.given == |args|
    ensures r.Failure? ==> r.error.ArgumentError? || (|args| == 2 && r.error == NoMethodError("merge", args[1]))
    ensures r.Failure? ==>
              (r.error.ArgumentError? <==> |args| == 0 || (!v.Delete? && |args| > ArityMax(v)))
  {
    if |args| == 0 || (v != Delete && |args| > ArityMax(v)) then
      Failure(ArgumentError(|args|))
    else
      var t := TypeName(args[0]);
      var md := SecondOr(args, Hash([]));
      match v
      case Describe => Success(DescribeCall(t))
      case Delete => Success(DeleteCall(t, args[1..]))
      case Read => Success(ReadCall(t, SecondOr(args, Arr([]))))
      case Create => if md.Hash? then Success(CreateCall(t, md.entries)) else Failure(NoMethodError("merge", md))
      case Upsert => if md.Hash? then Success(UpsertCall(t, md.entries)) else Failure(NoMethodError("merge", md))
      case Update => if md.Hash? then Success(UpdateCall(t, md.entries)) else Failure(NoMethodError("merge", md))
  }

  /** The most positional arguments each builder accepts (`_delete` takes
      any number). */
  function ArityMax(v: Verb): nat {
    match v
    case Describe => 1
    case Delete => 1
    case _ => 2
  }

  /** `_create`, `_upsert` and `_update` build the same message from the same
      arguments; only the operation name tells them apart. */
  lemma SaveVerbsDifferOnlyInOperation(typeName: string, md: seq<Entry>)
    ensures CreateCall(typeName, md).message == UpsertCall(typeName, md).message
    ensures UpsertCall(typeName, md).message == UpdateCall(typeName, md).message
    ensures CreateCall(typeName, md).operation != UpsertCall(typeName, md).operation
    ensures UpsertCall(typeName, md).operation != UpdateCall(typeName, md).operation
    ensures CreateCall(typeName, md).operation != UpdateCall(typeName, md).operation
  {
  }

  /** The save builders pass a `:content` value through as given: they do
      not call `prepare`, so nothing is Base64-encoded on this path. */
  lemma SaveSendsContentAsGiven(typeName: string, md: seq<Entry>)
    ensures exists h :: WrapsMetadata(CreateCall(typeName, md).message, h)
                        && Lookup(h, ContentKey) == Lookup(md, ContentKey)
  {
    var h := TagMetadata(typeName, md);
    assert WrapsMetadata(CreateCall(typeName, md).message, h);
  }

  /** A caller-supplied `'@xsi:type'` is replaced in place by the builder's
      tag rather than duplicated. */
  lemma CallerTagOverridden(typeName: string, md: seq<Entry>, i: nat)
    requires i < |md| && md[i].key == XsiType && DistinctKeys(md)
    ensures |TagMetadata(typeName, md)| == |md|
    ensures TagMetadata(typeName, md)[i] == Entry(XsiType, Str(TypeTag(typeName)))
    ensures DistinctKeys(TagMetadata(typeName, md))
  {
    var tag := [Entry(XsiType, Str(TypeTag(typeName)))];
    MergeSingle(md, XsiType, Str(TypeTag(typeName)));
    var h := Store(md, XsiType, Str(TypeTag(typeName)));
    assert h[i].key == XsiType;
    assert Lookup(h, XsiType) == Some(h[i].val) by {
      LookupDistinct(h, i);
    }
  }

  /** `_delete` with no names sends an empty list rather than failing. */
  lemma DeleteWithoutNames(typeName: string)
    ensures Send(Delete, [Sym(typeName)]) == Success(DeleteCall(typeName, []))
    ensures exists h :: WrapsMetadata(DeleteCall(typeName, []).message, h)
                        && Lookup(h, FullNamesKey) == Some(Arr([]))
  {
    SendBindsDelete(Sym(typeName), []);
    assert [Sym(typeName)] + [] == [Sym(typeName)];
    var c := DeleteCall(typeName, []);
    var h :| WrapsMetadata(c.message, h) && Lookup(h, FullNamesKey) == Some(Arr([]));
  }

  /** How the stored arguments of a save job reach its builder: the type
      symbol, then the metadata hash or its default `{}`. */
  lemma SendBindsSave(tv: Value, md: seq<Entry>)
    requires HasTypeName(tv)
    ensures Send(Create, [tv, Hash(md)]) == Success(CreateCall(TypeName(tv), md))
    ensures Send(Upsert, [tv, Hash(md)]) == Success(UpsertCall(TypeName(tv), md))
    ensures Send(Update, [tv, Hash(md)]) == Success(UpdateCall(TypeName(tv), md))
    ensures Send(Create, [tv]) == Success(CreateCall(TypeName(tv), []))
    ensures Send(Upsert, [tv]) == Success(UpsertCall(TypeName(tv), []))
    ensures Send(Update, [tv]) == Success(UpdateCall(TypeName(tv), []))
  {
  }

  /** `_delete(type, *names)` takes every argument after the type as a name. */
  lemma SendBindsDelete(tv: Value, names: seq<Value>)
    requires HasTypeName(tv)
    ensures Send(Delete, [tv] + names) == Success(DeleteCall(TypeName(tv), names))
  {
    var a := [tv] + names;
    assert a[0] == tv && a[1..] == names;
  }

  /** How the stored arguments of a delete, describe or read job reach
      their builders; `_read`'s names default to `[]`. */
  lemma SendBindsNames(tv: Value, names: seq<Value>, fullNames: Value)
    requires HasTypeName(tv)
    ensures Send(Delete, [tv] + names) == Success(DeleteCall(TypeName(tv), names))
    ensures Send(Describe, [tv]) == Success(DescribeCall(TypeName(tv)))
    ensures Send(Read, [tv, fullNames]) == Success(ReadCall(TypeName(tv), fullNames))
    ensures Send(Read, [tv]) == Success(ReadCall(TypeName(tv), Arr([])))
  {
    SendBindsDelete(tv, names);
  }

  /** `Array[metadata].compact.flatten`: a nil argument is dropped, a hash is
      wrapped, a list is flattened. `compact` runs first, so only a nil
      passed directly is dropped. */
  function Normalise(m: Value): (r: seq<Value>)
    ensures IsFlat(r)
    ensures m == Nil ==> r == []
    ensures !m.Arr? && m != Nil ==> r == [m]
    ensures m.Arr? ==> r == Flatten(m.items)
  {
    assert [m][1..] == [];
    assert Compact([m]) == if m == Nil then [] else [m];
    assert Flatten([m]) == (if m.Arr? then Flatten(m.items) else [m]) + Flatten([]);
    Flatten(Compact([m]))
  }

  /** Nils nested inside a list survive normalisation. */
  lemma NestedNilSurvives(h: seq<Entry>)
    ensures Normalise(Arr([Nil, Hash(h)])) == [Nil, Hash(h)]
  {
    FlattenFlat([Nil, Hash(h)]);
  }

  /** `Base64.encode64` needs a string under `:content`. */
  predicate ContentIsString(h: seq<Entry>) {
    ContentKey in KeysOf(h) ==> Lookup(h, ContentKey).value.Str?
  }

  /** `out` is `h` with only its `:content` value replaced by the encoding of
      the old one; a hash without `:content` is untouched. */
  ghost predicate IsEncodedCopy(out: seq<Entry>, h: seq<Entry>, encode64: string -> string)
    requires ContentIsString(h)
  {
    && KeysOf(out) == KeysOf(h)
    && (forall k :: k != ContentKey ==> Lookup(out, k) == Lookup(h, k))
    && (ContentKey in KeysOf(h) ==>
          Lookup(out, ContentKey) == Some(Str(encode64(Lookup(h, ContentKey).value.s))))
    && (ContentKey !in KeysOf(h) ==> out == h)
    && |out| == |h|
    && (forall i :: 0 <= i < |h| ==> out[i].key == h[i].key)
  }

  /** `encode_content(metadata)`. */
  function EncodeContent(h: seq<Entry>, encode64: string -> string): (r: seq<Entry>)
    requires ContentIsString(h)
    ensures IsEncodedCopy(r, h, encode64)
  {
    if ContentKey in KeysOf(h) then
      Store(h, ContentKey, Str(encode64(Lookup(h, ContentKey).value.s)))
    else h
  }

  /** What `prepare` needs of its argument: every element after
      normalisation is a hash (`has_key?` is sent to each) whose `:content`,
      if any, is a string. */
  predicate Preparable(m: Value) {
    forall x :: x in Normalise(m) ==> x.Hash? && ContentIsString(x.entries)
  }

  /** `prepare(metadata)`: the normalised list, each hash with its content
      encoded. */
  function Prepare(m: Value, encode64: string -> string): (r: seq<Value>)
    requires Preparable(m)
    ensures |r| == |Normalise(m)|
    ensures forall i :: 0 <= i < |r| ==>
              r[i].Hash? && IsEncodedCopy(r[i].entries, Normalise(m)[i].entries, encode64)
  {
    var n := Normalise(m);
    seq(|n|, i requires 0 <= i < |n| => Hash(EncodeContent(n[i].entries, encode64)))
  }

  /** The three shapes `prepare` accepts. */
  lemma PrepareShapes(m: Value, encode64: string -> string)
    requires Preparable(m)
    ensures m == Nil ==> Prepare(m, encode64) == []
    ensures m.Hash? ==> Prepare(m, encode64) == [Hash(EncodeContent(m.entries, encode64))]
    ensures m.Arr? ==> |Prepare(m, encode64)| == |Flatten(m.items)|
  {
  }

  /** With a decoder that inverts the encoder, the original content is
      recovered from every prepared hash. */
  lemma PreparedContentDecodes(m: Value, encode64: string -> string, decode64: string -> string, i: nat)
    requires Preparable(m)
    requires forall s :: decode64(encode64(s)) == s
    requires i < |Normalise(m)| && ContentKey in KeysOf(Normalise(m)[i].entries)
    ensures Lookup(Prepare(m, encode64)[i].entries, ContentKey).Some?
    ensures Lookup(Prepare(m, encode64)[i].entries, ContentKey).value.Str?
    ensures Some(Str(decode64(Lookup(Prepare(m, encode64)[i].entries, ContentKey).value.s)))
            == Lookup(Normalise(m)[i].entries, ContentKey)
  {
  }
}

=== FILE: values.dfy ===
/** Option and Result, the failure-carrying wrappers used throughout the model. */
module Results {

  datatype Option<+T> = None | Some(value: T)

  datatype Result<+T, +E> = Success(value: T) | Failure(error: E)
}

/**
  The slice of Ruby's object model that the CRUD path handles: symbols,
  strings, nil, arrays and insertion-ordered hashes, together with the
  `Hash#[]=`, `Hash#merge`, `Array#compact` and `Array#flatten` operations
  the source relies on.

  A Ruby hash is a sequence of entries in insertion order. Ruby keeps its
  keys distinct; the operations below keep that invariant (`DistinctKeys`)
  but do not need it to be defined.
 */
module Values {
  import opened Results

  /** A hash key. The source mixes symbol keys (`:content`, `:metadata`)
      with string keys (`'@xsi:type'`), and Ruby keeps the two apart. */
  datatype Key = SymKey(name: string) | StrKey(text: string)

  /** A Ruby value. `Scalar` stands for every other literal a caller may put
      in metadata (integers, `true`, `false`, floats), held as its literal
      text: the CRUD path only passes such values through or tests them
      against nil, so their arithmetic is never needed. */
  datatype Value =
    | Nil
    | Scalar(literal: string)
    | Str(s: string)
    | Sym(name: string)
    | Arr(items: seq<Value>)
    | Hash(entries: seq<Entry>)

  datatype Entry = Entry(key: Key, val: Value)

  /** The set of keys of a hash. */
  function KeysOf(es: seq<Entry>): (ks: set<Key>)
    ensures forall i :: 0 <= i < |es| ==> es[i].key in ks
  {
    if |es| == 0 then {} else {es[0].key} + KeysOf(es[1..])
  }

  predicate DistinctKeys(es: seq<Entry>) {
    forall i, j :: 0 <= i < j < |es| ==> es[i].key != es[j].key
  }

  /** `h[k]` for a hash that may lack `k`: the value stored under the first
      (in a well-formed hash, the only) entry with key `k`. */
  function Lookup(es: seq<Entry>, k: Key): (r: Option<Value>)
    ensures r.Some? <==> k in KeysOf(es)
  {
    if |es| == 0 then None
    else if es[0].key == k then Some(es[0].val)
    else Lookup(es[1..], k)
  }

  /** Every key of a hash is the key of some entry: the first one, whose
      value `Lookup` returns. */
  lemma {:induction false} FirstIndexOf(es: seq<Entry>, k: Key) returns (i: nat)
    requires k in KeysOf(es)
    ensures i < |es| && es[i] == Entry(k, Lookup(es, k).value)
    ensures forall j :: 0 <= j < i ==> es[j].key != k
  {
    if es[0].key == k {
      i := 0;
    } else {
      var j := FirstIndexOf(es[1..], k);
      i := j + 1;
    }
  }

  /** In a hash with distinct keys, looking up an entry's key finds it. */
  lemma {:induction false} LookupDistinct(es: seq<Entry>, i: nat)
    requires i < |es| && DistinctKeys(es)
    ensures Lookup(es, es[i].key) == Some(es[i].val)
  {
    if i > 0 {
      assert es[0].key != es[i].key;
      var rest := es[1..];
      assert DistinctKeys(rest) by {
        forall a, b | 0 <= a < b < |rest|
          ensures rest[a].key != rest[b].key
        {
          assert rest[a] == es[a + 1] && rest[b] == es[b + 1];
        }
      }
      LookupDistinct(rest, i - 1);
    }
  }

  /** A one-entry hash literal `{k => v}`. */
  lemma SingleEntry(k: Key, v: Value)
    ensures KeysOf([Entry(k, v)]) == {k}
    ensures Lookup([Entry(k, v)], k) == Some(v)
  {
  }

  /** Overwrites the value of every entry keyed `k`, leaving positions alone. */
  function Overwrite(es: seq<Entry>, k: Key, v: Value): (r: seq<Entry>)
    ensures |r| == |es|
    ensures forall i :: 0 <= i < |es| ==> r[i].key == es[i].key
    ensures forall i :: 0 <= i < |es| && es[i].key != k ==> r[i] == es[i]
    ensures forall i :: 0 <= i < |es| && es[i].key == k ==> r[i].val == v
  {
    if |es| == 0 then []
    else [if es[0].key == k then Entry(k, v) else es[0]] + Overwrite(es[1..], k, v)
  }

  lemma {:induction false} KeysOfAppend(a: seq<Entry>, b: seq<Entry>)
    ensures KeysOf(a + b) == KeysOf(a) + KeysOf(b)
  {
    if |a| == 0 {
      assert a + b == b;
    } else {
      assert (a + b)[1..] == a[1..] + b;
      KeysOfAppend(a[1..], b);
    }
  }

  /** Looking a key up after appending: the old entries win. */
  lemma {:induction false} LookupAppend(a: seq<Entry>, b: seq<Entry>, k: Key)
    ensures Lookup(a + b, k) == (if k in KeysOf(a) then Lookup(a, k) else Lookup(b, k))
  {
    if |a| == 0 {
      assert a + b == b;
    } else {
      assert (a + b)[1..] == a[1..] + b;
      LookupAppend(a[1..], b, k);
    }
  }

  lemma {:induction false} LookupOverwrite(es: seq<Entry>, k: Key, v: Value, k': Key)
    ensures Lookup(Overwrite(es, k, v), k') ==
              (if k' == k && k in KeysOf(es) then Some(v) else Lookup(es, k'))
  {
    if |es| > 0 {
      LookupOverwrite(es[1..], k, v, k');
    }
  }

  lemma LookupOverwriteAll(es: seq<Entry>, k: Key, v: Value)
    ensures forall k' :: Lookup(Overwrite(es, k, v), k') ==
              (if k' == k && k in KeysOf(es) then Some(v) else Lookup(es, k'))
  {
  }

  lemma LookupAppendAll(a: seq<Entry>, b: seq<Entry>)
    ensures forall k :: Lookup(a + b, k) == if k in KeysOf(a) then Lookup(a, k) else Lookup(b, k)
  {
    forall k {
      LookupAppend(a, b, k);
    }
  }

  lemma {:induction false} KeysOfOverwrite(es: seq<Entry>, k: Key, v: Value)
    ensures KeysOf(Overwrite(es, k, v)) == KeysOf(es)
  {
    if |es| > 0 {
      KeysOfOverwrite(es[1..], k, v);
    }
  }

  /** Ruby's `h[k] = v`: an existing key keeps its position and takes the new
      value; a new key is appended at the end. */
  function Store(es: seq<Entry>, k: Key, v: Value): (r: seq<Entry>)
    ensures KeysOf(r) == KeysOf(es) + {k}
    ensures Lookup(r, k) == Some(v)
    ensures forall j :: j != k ==> Lookup(r, j) == Lookup(es, j)
    ensures |r| == (if k in KeysOf(es) then |es| else |es| + 1)
  {
    if k in KeysOf(es) then
      KeysOfOverwrite(es, k, v);
      LookupOverwriteAll(es, k, v);
      Overwrite(es, k, v)
    else
      KeysOfAppend(es, [Entry(k, v)]);
      LookupAppendAll(es, [Entry(k, v)]);
      es + [Entry(k, v)]
  }

  /** The tail of a hash with distinct keys has distinct keys, none of them
      the head's. */
  lemma DistinctTail(es: seq<Entry>)
    requires |es| > 0 && DistinctKeys(es)
    ensures DistinctKeys(es[1..])
    ensures es[0].key !in KeysOf(es[1..])
  {
    var rest := es[1..];
    forall i, j | 0 <= i < j < |rest|
      ensures rest[i].key != rest[j].key
    {
      assert rest[i] == es[i + 1] && rest[j] == es[j + 1];
    }
    if es[0].key in KeysOf(rest) {
      var j := FirstIndexOf(rest, es[0].key);
    }
  }

  /** Storing keeps every existing entry in its place, changes only the
      entries keyed `k`, and puts a new key last. */
  lemma StoreKeepsOrder(es: seq<Entry>, k: Key, v: Value)
    ensures forall i :: 0 <= i < |es| ==> Store(es, k, v)[i].key == es[i].key
    ensures forall i :: 0 <= i < |es| && es[i].key != k ==> Store(es, k, v)[i] == es[i]
    ensures k !in KeysOf(es) ==> Store(es, k, v)[|es|] == Entry(k, v)
  {
  }

  /** Storing keeps a hash's keys distinct. */
  lemma StoreKeepsDistinct(es: seq<Entry>, k: Key, v: Value)
    requires DistinctKeys(es)
    ensures DistinctKeys(Store(es, k, v))
  {
    var r := Store(es, k, v);
    StoreKeepsOrder(es, k, v);
    if k !in KeysOf(es) {
      forall i | 0 <= i < |es|
        ensures r[i].key != r[|es|].key
      {
        assert es[i].key in KeysOf(es);
      }
    }
  }

  /** Ruby's `h.merge(other)`: every entry of `other`, in order, stored into
      a copy of `h`. `other` is itself a Ruby hash, so its keys are distinct. */
  function Merge(es: seq<Entry>, other: seq<Entry>): (r: seq<Entry>)
    requires DistinctKeys(other)
    ensures KeysOf(r) == KeysOf(es) + KeysOf(other)
    ensures forall k :: k in KeysOf(other) ==> Lookup(r, k) == Lookup(other, k)
    ensures forall k :: k !in KeysOf(other) ==> Lookup(r, k) == Lookup(es, k)
    ensures |r| >= |es|
    ensures forall i :: 0 <= i < |es| ==> r[i].key == es[i].key
    decreases |other|
  {
    if |other| == 0 then es
    else
      DistinctTail(other);
      StoreKeepsOrder(es, other[0].key, other[0].val);
      Merge(Store(es, other[0].key, other[0].val), other[1..])
  }

  /** Merging keeps a hash's keys distinct. */
  lemma {:induction false} MergeKeepsDistinct(es: seq<Entry>, other: seq<Entry>)
    requires DistinctKeys(other)
    ensures DistinctKeys(es) ==> DistinctKeys(Merge(es, other))
    decreases |other|
  {
    if |other| > 0 && DistinctKeys(es) {
      DistinctTail(other);
      StoreKeepsDistinct(es, other[0].key, other[0].val);
      MergeKeepsDistinct(Store(es, other[0].key, other[0].val), other[1..]);
    }
  }

  /** Merging a single-entry hash is storing that entry. */
  lemma MergeSingle(es: seq<Entry>, k: Key, v: Value)
    ensures Merge(es, [Entry(k, v)]) == Store(es, k, v)
  {
  }

  /** Ruby's `Array#compact`: drops the nil elements, keeping the order of the rest. */
  function Compact(xs: seq<Value>): (r: seq<Value>)
    ensures forall i :: 0 <= i < |r| ==> r[i] != Nil
    ensures forall x :: x in r <==> x in xs && x != Nil
    ensures |r| <= |xs|
    ensures (forall i :: 0 <= i < |xs| ==> xs[i] != Nil) ==> r == xs
  {
    if |xs| == 0 then []
    else
      assert forall x :: x in xs <==> x == xs[0] || x in xs[1..];
      (if xs[0] == Nil then [] else [xs[0]]) + Compact(xs[1..])
  }

  /** Compacting a one-element list keeps the element unless it is nil. */
  lemma CompactSingle(x: Value)
    ensures Compact([x]) == if x == Nil then [] else [x]
  {
    assert [x][1..] == [];
  }

  /** Compacting distributes over concatenation: every non-nil element is
      kept, in its original order. With `CompactSingle` this determines
      `Compact` on every list. */
  lemma {:induction false} CompactAppend(a: seq<Value>, b: seq<Value>)
    ensures Compact(a + b) == Compact(a) + Compact(b)
  {
    if |a| == 0 {
      assert a + b == b;
    } else {
      assert (a + b)[0] == a[0];
      assert (a + b)[1..] == a[1..] + b;
      CompactAppend(a[1..], b);
    }
  }

  /** Ruby's `Array#flatten` without a depth: nested arrays are spliced in
      place, recursively, in order. Nothing else is removed. */
  function Flatten(xs: seq<Value>): (r: seq<Value>)
    ensures forall i :: 0 <= i < |r| ==> !r[i].Arr?
    ensures forall x :: x in xs && !x.Arr? ==> x in r
    decreases xs
  {
    if |xs| == 0 then []
    else
      assert forall x :: x in xs <==> x == xs[0] || x in xs[1..];
      (if xs[0].Arr? then Flatten(xs[0].items) else [xs[0]]) + Flatten(xs[1..])
  }

  /** A nested array is replaced by its own flattened contents. With
      `FlattenAppend` and `FlattenFlat` this determines `Flatten` on every
      list. */
  lemma FlattenNested(ys: seq<Value>)
    ensures Flatten([Arr(ys)]) == Flatten(ys)
  {
    assert [Arr(ys)][1..] == [];
  }

  ghost predicate IsFlat(xs: seq<Value>) {
    forall i :: 0 <= i < |xs| ==> !xs[i].Arr?
  }

  /** Flattening distributes over concatenation, so order is preserved. */
  lemma {:induction false} FlattenAppend(a: seq<Value>, b: seq<Value>)
    ensures Flatten(a + b) == Flatten(a) + Flatten(b)
  {
    if |a| == 0 {
      assert a + b == b;
    } else {
      assert (a + b)[0] == a[0];
      assert (a + b)[1..] == a[1..] + b;
      FlattenAppend(a[1..], b);
    }
  }

  /** A list with no nested arrays is its own flattening. */
  lemma {:induction false} FlattenFlat(xs: seq<Value>)
    requires IsFlat(xs)
    ensures Flatten(xs) == xs
  {
    if |xs| > 0 {
      FlattenFlat(xs[1..]);
    }
  }

  /** Flattening twice is flattening once. */
  lemma FlattenIdempotent(xs: seq<Value>)
    ensures Flatten(Flatten(xs)) == Flatten(xs)
  {
    FlattenFlat(Flatten(xs));
  }
}
